=== FILE: README.md ===
# Genetic-algorithm generation step — a Dafny model

This project models the generational cycle of the genetic-algorithm engine in
`src/populacja.cpp` (class `populacja`, method `nowa_populacja`). One call
takes a population of individuals (`osobnik`: a genome of alleles plus a
fitness value) to the next generation:

1. evaluate every genome with the fitness function;
2. shift all fitness values by a minimum so that selection sees non-negative weights;
3. collect statistics: sum, mean, first best and first worst individual;
4. sort ascending by fitness and build a cumulative percentage table over the upper half (the elite pool);
5. fill a fresh population by roulette: each slot copies the first elite member whose cumulative value exceeds a draw in [0, 99.99];
6. pair the population at random through an index list (`lista_zwroc`, `std::list::remove`) and swap genome suffixes at a random crossing point;
7. mutate every allele with the configured percentage into `[0, ILOSC_DOSTEPNYCH)`;
8. evaluate again.

Every step is a pure function over `seq<Individual>`. The program's global
`std::rand()` is replaced by explicit draw sequences holding the raw `rand()`
results. The model applies the source's own `%` and `/` to them, so no draw is
restricted by a precondition. The freshly constructed individuals of
`nowa_tablica_inicjalizuj` are the parameter `blanks`. The fitness function is
the parameter `fit`. A `rand() % 0` in the source is the result `Failure(ModuloByZero)`:

- on an odd population size the last round starts with a single index; the first draw (`:118-119`) takes it, and the second draw is `rand() % 0` on the now empty list (`:122`);
- a one-allele genome makes the crossing-point modulus 0 (`:126`).

Modules follow the source's parts: `Outcomes` (result types, unsigned width),
`Lists` (the index list), `Individuals` (individuals, evaluation, shift),
`Stats` (statistics), `Selection` (sort, table, resampling), `Crossover`,
`Mutation`, `Generation` (the engine and the composed step).

Two readings differ from the code as written; both are listed under Findings:

- The cumulative table is indexed relative to the elite pool, and the elite sum covers the whole pool. The code as written reads past its table, so the as-written functions always end in `Failure(OutOfBounds)` or `Failure(DivisionByZero)`.
- `Generation.NextGeneration` shifts by the minimum of the values it has just evaluated. `Generation.NextGenerationAsWritten` keeps the source's shift by the minimum of the previous statistics pass.

The lookup guard in `lista_zwroc` (`:13`) tests `index > size` where
`index >= size` is meant. The result is still 0 for `index == size`, because the
scan falls through to the final `return 0`. `Lists.ListReturn` reports which
path was taken, and only that path differs.

## Model

| member | source | states |
|---|---|---|
| Lists.ListReturn | src/populacja.cpp:11-28 | for `index < size` the scan returns element `index`; `index == size` passes the guard and the scan runs off the end, giving 0; `index > size` is rejected by the guard, giving 0 |
| Lists.RemoveValue | src/populacja.cpp:119 | `list::remove(v)` keeps exactly the elements other than `v`, with their counts; removing a present value shortens the list; removing an absent value leaves the list as it was |
| Lists.RemoveValueAppend | src/populacja.cpp:119 | removal distributes over concatenation, so the remaining elements keep their relative order, which the next positional lookup at `:122` depends on |
| Lists.RemoveOnce | src/populacja.cpp:119-123 | on a list without repetitions, removing a present index takes out exactly that one element and keeps the list repetition-free |
| Lists.ListAt | src/populacja.cpp:11-28 | the value is an `unsigned`; a position inside the list yields the stored value (when it fits), a position at or past the end yields 0 |
| Crossover.Indices | src/populacja.cpp:110-112 | the index list built by `push_back` holds `i` at position `i`, in increasing order, so it holds each of `0 .. n-1` exactly once |
| Crossover.Pairing | src/populacja.cpp:115-123 | every pair's two indices are different and come from the list; it fails only with `rand() % 0`; it forms at most `size / 2` pairs |
| Crossover.PairingSucceedsOnEven | src/populacja.cpp:115-123 | on a repetition-free list the pairing succeeds iff the size is even, and then it forms exactly `size / 2` pairs |
| Crossover.PairingPartitions | src/populacja.cpp:110-123 | on an even-length list without repetitions the pairing succeeds and uses every index exactly once, so the pairs are disjoint and cover the population |
| Crossover.IndexPairing | src/populacja.cpp:110-123 | pairing the list `0 .. n-1` forms `n/2` pairs within the population, no index in two pairs, and an index is paired iff it is below `n` |
| Crossover.CrossOccurs | src/populacja.cpp:125 | `(rand() % 1000) / 1000` is always 0, so a pair is crossed iff the crossover probability is positive |
| Crossover.CrossingPoint | src/populacja.cpp:126 | for genome length `L >= 2` the point lies in `[1, L-1]`; `L == 1` is `rand() % 0`; `L == 0` wraps to a point of at least 1 |
| Crossover.SwapSuffix | src/populacja.cpp:126-127 | positions before the point keep their alleles; positions from the point on are exchanged between the partners; lengths are kept |
| Crossover.SwapSuffixTwice | src/populacja.cpp:126-127 | swapping the same suffix twice restores both genomes |
| Crossover.SwapSuffixExample | src/populacja.cpp:126-127 | genomes 0000 and 1111 crossed at 2 become 0011 and 1100 |
| Crossover.CrossPair | src/populacja.cpp:126-127 | only the two partners change, their genomes as by the suffix swap; every fitness value and genome length is kept |
| Crossover.CrossingStepKeeps | src/populacja.cpp:125-127 | crossing the first pair and then the rest leaves every individual outside all pairs unchanged |
| Crossover.CrossingStepCarries | src/populacja.cpp:125-127 | when the first pair is disjoint from the rest, its suffix swap survives the later rounds, so every pair ends up swapped at its own drawn point |
| Crossover.ApplyCrossings | src/populacja.cpp:125-127 | on disjoint pairs: fails iff some pair is crossed (positive rate) on one-allele genomes; otherwise, with a positive rate, each pair's genomes are the two partners' genomes with suffixes swapped at that pair's drawn crossing point, every individual in no pair is unchanged, and size, genome lengths and fitness values are kept; a rate of 0 changes nothing |
| Crossover.Cross | src/populacja.cpp:108-129 | `krzyzuj` succeeds iff the population size is even and no pair crosses one-allele genomes; on success the rounds form `n/2` disjoint pairs that together cover every index `0 .. n-1`, and with a positive rate each pair's genomes have their suffixes swapped at its drawn point; size, genome lengths and fitness values are kept; with rate 0 nothing changes |
| Mutation.MutationOccurs | src/populacja.cpp:136 | the integer draw `0..99` against the percentage: a percentage of 0 or below never mutates, above 99 always does |
| Mutation.MutateGenome | src/populacja.cpp:135-137 | the length is kept; each allele either stays or becomes the drawn value modulo the allele count, so every changed allele is in the domain; percentage 0 changes nothing; above 99 every allele is replaced |
| Mutation.Mutate | src/populacja.cpp:132-138 | `mutuj` keeps size, genome lengths and fitness values; every changed allele is below `ILOSC_DOSTEPNYCH`; percentage 0 changes nothing; above 99 replaces every allele |
| Generation.Create | src/populacja.cpp:231 | the engine stores the mutation probability as a percentage: probability 0 gives 0, probability 1 gives a percentage above 99 (every allele mutates) |
| Individuals.Evaluate | src/populacja.cpp:53-57 | genomes are kept and every fitness becomes `fit(genome)` |
| Individuals.EvaluateIdempotent | src/populacja.cpp:53-57 | evaluating twice in a row gives the same population as evaluating once |
| Individuals.Shift | src/populacja.cpp:59-63 | the shift keeps genomes, size and every pairwise fitness difference |
| Individuals.ShiftPreservesOrder | src/populacja.cpp:59-63 | the shift keeps the (strict and non-strict) fitness order of any two individuals |
| Individuals.ShiftByMinimum | src/populacja.cpp:59-63 | shifting by a minimum fitness makes every value non-negative and the minimum individual's value 0 |
| Individuals.ShiftByLowerBound | src/populacja.cpp:59-63 | shifting by any value no larger than every fitness makes every shifted fitness non-negative |
| Stats.BestIndex | src/populacja.cpp:176-180 | the best position attains the maximum over the scanned prefix and every earlier position is strictly worse, i.e. first occurrence wins |
| Stats.WorstIndex | src/populacja.cpp:181-185 | the worst position attains the minimum over the scanned prefix and every earlier position is strictly better |
| Stats.ComputeStatistics | src/populacja.cpp:167-188 | `suma` is the total, `mean * n == suma`, `max`/`min` bound every fitness and are attained first at `najlepszy`/`najgorszy` |
| Stats.StatisticsExample | src/populacja.cpp:167-188 | fitness values 3, 1, 4, 1, 5 give minimum 1 at the second, maximum 5 at the fifth, mean 2.8 |
| Selection.InsertByFitness | src/populacja.cpp:32-35 | inserting by `compareosobnik1` into an ascending sequence yields an ascending sequence with exactly one more copy of the element |
| Selection.LessFitStrictWeakOrder | src/populacja.cpp:32-35 | `compareosobnik1` is irreflexive, asymmetric and transitive, and two individuals are incomparable iff their fitness values are equal, as `std::sort` requires |
| Selection.SortByFitness | src/populacja.cpp:41 | the sort yields an ascending permutation of the population |
| Selection.AscendingOrdered | src/populacja.cpp:41 | in the sorted population every individual is at least as fit as every earlier one |
| Selection.Table | src/populacja.cpp:47-50 | entry k of the cumulative table is the percentage of the elite sum held by elite members `0..k` |
| Selection.CumulativeTable | src/populacja.cpp:40-50 | the table has one entry per elite member and is absent exactly when the elite sum is 0 |
| Selection.TableNondecreasing | src/populacja.cpp:47-50 | with non-negative fitness values the table never decreases |
| Selection.TableEndsAtHundred | src/populacja.cpp:43-50 | the last entry of a non-degenerate table is exactly 100 |
| Selection.DrawValue | src/populacja.cpp:94 | the draw lies in `[0, 99.99]` on a grid of 0.01 |
| Selection.FirstAbove | src/populacja.cpp:95-102 | the scan finds the first entry above the draw, with every earlier entry at or below it; it finds none iff no entry exceeds the draw |
| Selection.Slot | src/populacja.cpp:95-101 | when entry `k` is the first table entry above the draw, the slot receives elite member `k`; when no entry exceeds the draw, or there is no table, it keeps its freshly constructed individual |
| Selection.Resample | src/populacja.cpp:87-104 | the new population has the old size and each slot is a copy of an elite member or its fresh individual |
| Selection.ResampleCopiesElite | src/populacja.cpp:87-104 | whenever the elite sum is not 0, whatever the signs of the fitness values, every slot is a copy of an elite member |
| Selection.ResampleDegenerate | src/populacja.cpp:87-104 | with a zero elite sum no slot is filled and the fresh individuals remain |
| Selection.EliteSumAsWrittenSkipsMember | src/populacja.cpp:43-45 | the sum as written equals the elite sum minus the member at `n/2` |
| Selection.EliteSumAsWritten | src/populacja.cpp:43-45 | the loop starting at `n/2 + 1` adds nothing for two or fewer members |
| Selection.CumulativeTableAsWritten | src/populacja.cpp:40-50 | one or no member: the first write is outside the empty table; two members: division by the empty sum; three or more: division by a zero sum, or else the first loop step reads entry `n/2`, one past the end |
| Selection.FillAsWritten | src/populacja.cpp:49-50 | the loop keeps the table's length and the entries before `j`; a read index `i - 1` past the table's end is `Failure(OutOfBounds)` |
| Selection.TableOnAsWrittenSumOvershoots | src/populacja.cpp:43-50 | with the member at `n/2` strictly fit, a table on the as-written sum ends above 100 |
| Selection.TableOnAsWrittenSumExample | src/populacja.cpp:43-50 | sorted fitness values 0, 0, 1, 1: the as-written sum is 1 against an elite sum of 2, and a table built on it, indexed as intended, reads 100, 200 |
| Selection.CumulativeTableAsWrittenFaults | src/populacja.cpp:40-50 | the table as written never comes out: it always writes or reads outside its `n/2` entries or divides by an empty sum |
| Selection.ScanAsWrittenFaults | src/populacja.cpp:95-97 | the scan as written reads entry `n/2` of an `n/2`-entry table first, for every non-empty population |
| Selection.ScanAsWritten | src/populacja.cpp:95-101 | a found position `j` lies in the scanned range and inside the table with the draw below its entry; no find means every scanned entry is at or below the draw; the first position at or past the table's end is `Failure(OutOfBounds)` |
| Generation.Select | src/populacja.cpp:145-148 | selection keeps size and genome lengths and every slot is an elite member of the sorted population or its fresh individual |
| Generation.ShiftedStatistics | src/populacja.cpp:143-144 | the statistics taken after the shift report as minimum the least evaluated fitness minus the shift, attained at `najgorszy` |
| Generation.Breed | src/populacja.cpp:160-162 | crossover, mutation and re-evaluation succeed iff the size is even and no one-allele pair is crossed; they keep size and genome lengths and leave every fitness fresh |
| Generation.Advance | src/populacja.cpp:140-163 | a step succeeds iff the size is even and no one-allele pair is crossed; it keeps the population size, every genome length and the engine's parameters, leaves every fitness equal to `fit(genome)`, and records the shifted minimum |
| Generation.NextGenerationAsWritten | src/populacja.cpp:142-144 | the step as written records a minimum no larger than any current fitness minus the previous pass's minimum |
| Generation.StaleMinimumGoesNegative | src/populacja.cpp:142-144 | when the step succeeds (even size, no one-allele crossing), a member now below the previous minimum enters selection with negative fitness, and the recorded minimum is negative |
| Generation.NextGeneration | src/populacja.cpp:140-163 | the step shifting by the current minimum gives every individual a non-negative weight as it enters selection, records minimum 0, and keeps size and validity |
| Generation.FitterOfTwoTakesOver | src/populacja.cpp:140-163 | with two members of different fitness and no crossing or mutation, both members of the next generation carry the fitter genome |

## Left out

- Console output (`wyswietl_statystyki`, `wyswietl`, the `cerr` messages): I/O only. `Lists.ListReturn` still reports which `cerr` path was taken.
- Allocation, NULL checks, `zwolnij_pamiec`, the destructor: heap plumbing. Replacing the population is returning a new sequence.
- `reinicjalizuj`: a debug-only random reset.
- The global `std::rand()` stream: replaced by separate draw sequences per use (selection, pairing rounds, alleles). The model does not fix how these interleave in the one stream the program consumes.
- The fitness function `osobnik::oblicz_przystosowanie` and the constant `ILOSC_DOSTEPNYCH` are not part of this model. They are the parameter `fit` and the positive type `Mutation.AlleleCount`.
- The contents of a freshly constructed `osobnik(rozmiar_ciagu)` are not part of this model: they are the parameter `blanks`.
- IEEE `double` behaviour: fitness values are reals. A zero elite sum makes the table absent, which matches IEEE when every elite value is 0 (all entries NaN). With mixed signs, which only a stale minimum can produce, IEEE gives infinities that this model does not track.
- Selection.CumulativeTableAsWritten: a zero divisor in the table as written is reported as `Failure(DivisionByZero)`. Under IEEE arithmetic the entries become NaN (a zero member), +infinity (a positive member) or -infinity (a negative member). No draw is below a NaN or -infinity entry, but every draw is below +infinity, so the scan can pick a member there. For example, two members with the fitter one positive give the entry +infinity. The model does not follow these values.
- Stats.ComputeStatistics: requires a non-empty population; the source's `±9999999999` sentinels and its `0 / 0` mean for an empty population are not modelled.
- Stats.ComputeStatistics: `sum` is the total that `oblicz_statystyki` adds up into the member `suma` (`:169-175`). `selekcja_elitarna` then reuses that member for its elite sum (`:43-45`). After `nowa_populacja` the engine's `suma` therefore holds the elite sum (as written, members `n/2+1 ..`), not this total. `Generation.Outcome` reports the total, and the model does not follow the overwrite.
- The copy `*nowa[i] = *(osobniki[j])` (`:99`) is modelled as an independent copy of the elite member's genome and fitness. The copy assignment of `osobnik` is not part of this model. If it copied only the pointer to the allele buffer, copies of one elite member would share one genome, and `zwolnij_pamiec()` at `:153` would free alleles the new generation still uses.
- `prawd_mutacji` and `prawd_krzyzowania` are modelled as reals. Their declarations (`populacja.hpp`) are not part of this model. Were they integers, `prawd_mutacji(p_mutacji * 100)` at `:231` would truncate the percentage, and a crossover probability below 1 would become 0.
- Generation.Create: requires a non-empty population (and `Generation.Valid` demands one), although the constructor at `:231-242` accepts `lpop = 0`; an empty engine reaches the table write at `:48` with no defined outcome, as for `Generation.Advance`.
- Generation.Advance: requires a non-empty population, because the source's table write at `:48` has no defined outcome for it; also requires sizes below 2^32 (`unsigned`).
- Crossover.Cross: the index list is `list<int>` filled from `unsigned`; the model keeps the values unsigned, which is the same for sizes below 2^31.
- Selection.SortByFitness: `std::sort` leaves the order of equal-fitness individuals unspecified. The model fixes one order. Ascending order and permutation, the properties proved, hold for any order.
- `src/Individual.hpp`: the bodies of `cross`/`mutate` are in the `Individual` implementation file, which this model does not cover. The suffix swap is modelled from `populacja.cpp:126-127`.
- `src/selection/ISelectionStrategy.hpp`: an interface without behaviour.
- `tests/src/DefaultSelectionTest.cpp`: it tests a selection class whose source is not part of this model.
- The odd-population case is an error (`rand() % 0` at `:122`), not a policy: the model reports it as `Failure(ModuloByZero)`.

## Findings

| source | as written | input that shows it | evidently intended | confidence | as-written member | corrected member |
|---|---|---|---|---|---|---|
| src/populacja.cpp:44 | the elite sum starts at `n/2 + 1`, although `:48` adds the share of member `n/2` | sorted fitness 0, 0, 1, 1: the sum is 1 against an elite sum of 2, and a table built on this sum, indexed as intended, reads 100, 200 (`Selection.TableOnAsWrittenSumExample`) | sum over `n/2 .. n-1`, so the table ends at 100 | high; not executed | Selection.EliteSumAsWritten | Selection.CumulativeTable |
| src/populacja.cpp:48-50 | a table of `n/2` entries whose entry `j` adds entry `i - 1`, with `i = n/2 + j` | any `n >= 3`: the first loop step reads entry `n/2`, past the end; `n = 2`: the sum is empty and divides by 0 (`Selection.CumulativeTableAsWrittenFaults`) | `n - n/2` entries, entry `j` adds entry `j - 1` | high; not executed | Selection.CumulativeTableAsWritten | Selection.Table |
| src/populacja.cpp:95-97 | the scan reads `prawd_wybrania[j]` for `j = n/2 .. n-1` | any `n >= 1`: the first read is entry `n/2` of an `n/2`-entry table (`Selection.ScanAsWrittenFaults`) | read entry `j - n/2` | high; not executed | Selection.ScanAsWritten | Selection.FirstAbove |
| src/populacja.cpp:143 | the shift subtracts `min_przystosowanie` from the previous statistics pass, recomputed only at `:144` | a member whose fitness is now below the previous minimum gets a negative weight (`Generation.StaleMinimumGoesNegative`) | shift by the minimum of the values just evaluated | medium; not executed | Generation.NextGenerationAsWritten | Generation.NextGeneration |

=== FILE: crossover.dfy ===
/** `krzyzuj`: random disjoint pairing of the population through an index
    list, then, pair by pair, a single-point suffix swap of the genomes. */
module Crossover {
  import opened Outcomes
  import opened Lists
  import opened Individuals

  /** The four `rand()` results one round of the pairing loop consumes: the
      two list positions, the crossing-occurrence draw and the crossing
      point (the last is consumed only when the pair is crossed). */
  datatype PairDraw = PairDraw(first: nat, second: nat, occurrence: nat, point: nat)

  /** Positions of two partners in the population (`tmp1`, `tmp2`). */
  datatype Pair = Pair(first: nat, second: nat)

  /** The partners of all pairs, in drawing order. */
  function Flatten(ps: seq<Pair>): seq<int>
  {
    if |ps| == 0 then [] else [ps[0].first as int, ps[0].second as int] + Flatten(ps[1..])
  }

  predicate InUnsignedRange(l: seq<int>)
  {
    forall x :: x in l ==> 0 <= x < UintModulus
  }

  /** The index list `0, 1, .., n-1`, built by appending. */
  function Indices(n: nat): (l: seq<int>)
    ensures |l| == n
    ensures forall i :: 0 <= i < n ==> l[i] == i
    ensures forall x :: x in l <==> 0 <= x < n
    ensures Distinct(l)
  {
    if n == 0 then []
    else
      var prev := Indices(n - 1);
      assert multiset(prev)[n - 1] == 0;
      assert multiset(prev + [n - 1]) == multiset(prev) + multiset{n - 1};
      prev + [n - 1]
  }

  /** A lookup at a valid position of an in-range list yields that element. */
  lemma PickInList(l: seq<int>, k: nat)
    requires InUnsignedRange(l) && k < |l|
    ensures ListAt(l, k) == l[k] && ListAt(l, k) in l
  {
    assert l[k] in l;
  }

  /** The pairing loop of `krzyzuj`: take the element at a random position,
      remove it, then do the same for its partner, until the list is empty.
      A list with one element left makes the second draw `rand() % 0`. */
  function Pairing(l: seq<int>, draws: seq<PairDraw>): (r: Result<seq<Pair>>)
    requires InUnsignedRange(l)
    requires |l| <= 2 * |draws|
    ensures r.Failure? ==> r.fault == ModuloByZero
    ensures r.Success? ==> 2 * |r.value| <= |l|
    ensures r.Success? ==> forall q :: q in r.value ==>
              q.first as int in l && q.second as int in l && q.first != q.second
    decreases |l|
  {
    if |l| == 0 then Success([])
    else
      var a := ListAt(l, draws[0].first % |l|);
      PickInList(l, draws[0].first % |l|);
      var rest := RemoveValue(l, a);
      if |rest| == 0 then Failure(ModuloByZero)
      else
        var b := ListAt(rest, draws[0].second % |rest|);
        PickInList(rest, draws[0].second % |rest|);
        var rest' := RemoveValue(rest, b);
        match Pairing(rest', draws[1..])
        case Failure(e) => Failure(e)
        case Success(ps) => Success([Pair(a, b)] + ps)
  }

  /** Removing two elements keeps the parity and takes one pair off. */
  lemma ParityStep(m: nat, n: nat)
    requires m + 2 == n
    ensures m % 2 == n % 2 && m / 2 + 1 == n / 2
  {
  }

  /** Taking the element at a valid position of an in-range list without
      repetitions and removing it leaves such a list, one element shorter. */
  lemma TakeOne(l: seq<int>, k: nat)
    requires InUnsignedRange(l) && Distinct(l) && k < |l|
    ensures var rest := RemoveValue(l, ListAt(l, k));
            && InUnsignedRange(rest) && Distinct(rest) && |rest| == |l| - 1
            && multiset(l) == multiset(rest) + multiset{ListAt(l, k) as int}
  {
    PickInList(l, k);
    RemoveOnce(l, ListAt(l, k));
  }

  /** One round of the pairing on a list without repetitions and with at
      least two elements: it takes two different elements `a` and `b` and
      continues on the list without them. */
  lemma PairingStep(l: seq<int>, draws: seq<PairDraw>) returns (a: nat, b: nat, rest: seq<int>)
    requires InUnsignedRange(l) && |l| <= 2 * |draws| && Distinct(l) && |l| >= 2
    ensures InUnsignedRange(rest) && Distinct(rest)
    ensures |rest| == |l| - 2 && |rest| <= 2 * |draws[1..]|
    ensures multiset(l) == multiset(rest) + multiset{a as int, b as int}
    ensures a == ListAt(l, draws[0].first % |l|)
    ensures |RemoveValue(l, a)| == |l| - 1
    ensures b == ListAt(RemoveValue(l, a), draws[0].second % |RemoveValue(l, a)|)
    ensures rest == RemoveValue(RemoveValue(l, a), b)
  {
    a := ListAt(l, draws[0].first % |l|);
    var rest1 := RemoveValue(l, a);
    assert InUnsignedRange(rest1) && Distinct(rest1) && |rest1| == |l| - 1 by {
      TakeOne(l, draws[0].first % |l|);
    }
    assert multiset(l) == multiset(rest1) + multiset{a as int} by {
      TakeOne(l, draws[0].first % |l|);
    }
    b := ListAt(rest1, draws[0].second % |rest1|);
    rest := RemoveValue(rest1, b);
    assert InUnsignedRange(rest) && Distinct(rest) && |rest| == |rest1| - 1 by {
      TakeOne(rest1, draws[0].second % |rest1|);
    }
    assert multiset(rest1) == multiset(rest) + multiset{b as int} by {
      TakeOne(rest1, draws[0].second % |rest1|);
    }
    TakeTwo(multiset(l), multiset(rest1), multiset(rest), a, b);
  }

  lemma TakeTwo(whole: multiset<int>, mid: multiset<int>, rest: multiset<int>, a: int, b: int)
    requires whole == mid + multiset{a} && mid == rest + multiset{b}
    ensures whole == rest + multiset{a, b}
  {
  }

  /** On a list without repetitions, the pairing succeeds exactly when the
      list has even length, and then it forms `|l| / 2` pairs. */
  lemma {:induction false} PairingSucceedsOnEven(l: seq<int>, draws: seq<PairDraw>)
    requires InUnsignedRange(l)
    requires |l| <= 2 * |draws|
    requires Distinct(l)
    ensures Pairing(l, draws).Success? <==> |l| % 2 == 0
    ensures Pairing(l, draws).Success? ==> |Pairing(l, draws).value| == |l| / 2
    decreases |l|
  {
    if |l| == 1 {
      var a := ListAt(l, draws[0].first % |l|);
      PickInList(l, draws[0].first % |l|);
      RemoveOnce(l, a);
      assert Pairing(l, draws) == Failure(ModuloByZero);
    } else if |l| >= 2 {
      var a, b, rest := PairingStep(l, draws);
      PairingSucceedsOnEven(rest, draws[1..]);
      assert Pairing(l, draws) == match Pairing(rest, draws[1..])
        case Failure(e) => Failure(e)
        case Success(ps) => Success([Pair(a, b)] + ps);
      ParityStep(|rest|, |l|);
    }
  }

  /** The pairing of an even-length list without repetitions succeeds and
      uses every element exactly once, so its pairs are disjoint and cover
      the list. */
  lemma PairingPartitions(l: seq<int>, draws: seq<PairDraw>)
    requires InUnsignedRange(l)
    requires |l| <= 2 * |draws|
    requires Distinct(l)
    requires |l| % 2 == 0
    ensures Pairing(l, draws).Success?
    ensures multiset(Flatten(Pairing(l, draws).value)) == multiset(l)
    ensures Distinct(Flatten(Pairing(l, draws).value))
  {
    PairingSucceedsOnEven(l, draws);
    SuccessfulPairingCovers(l, draws);
  }

  /** A successful pairing of a list without repetitions uses every element
      exactly once. */
  lemma {:induction false} SuccessfulPairingCovers(l: seq<int>, draws: seq<PairDraw>)
    requires InUnsignedRange(l)
    requires |l| <= 2 * |draws|
    requires Distinct(l)
    requires Pairing(l, draws).Success?
    ensures multiset(Flatten(Pairing(l, draws).value)) == multiset(l)
    ensures Distinct(Flatten(Pairing(l, draws).value))
    decreases |l|
  {
    if |l| >= 2 {
      var a, b, rest := PairingStep(l, draws);
      assert Pairing(l, draws) == match Pairing(rest, draws[1..])
        case Failure(e) => Failure(e)
        case Success(ps) => Success([Pair(a, b)] + ps);
      SuccessfulPairingCovers(rest, draws[1..]);
      FlattenStep(l, rest, a, b, Pairing(rest, draws[1..]).value);
    } else {
      PairingSucceedsOnEven(l, draws);
    }
    DistinctSameMultiset(Flatten(Pairing(l, draws).value), l);
  }

  /** One pairing round adds its two partners in front of the rest. */
  lemma FlattenStep(l: seq<int>, rest: seq<int>, a: nat, b: nat, ps: seq<Pair>)
    requires multiset(l) == multiset(rest) + multiset{a as int, b as int}
    requires multiset(Flatten(ps)) == multiset(rest)
    ensures multiset(Flatten([Pair(a, b)] + ps)) == multiset(l)
  {
    assert ([Pair(a, b)] + ps)[1..] == ps;
  }

  /** A successful pairing of the index list `0 .. n-1` splits it into
      `n/2` disjoint pairs of different positions that together cover every
      position. */
  lemma IndexPairing(n: nat, draws: seq<PairDraw>)
    requires n < UintModulus && n <= 2 * |draws|
    requires Pairing(Indices(n), draws).Success?
    ensures PairsWithin(Pairing(Indices(n), draws).value, n)
    ensures PartitionOf(Pairing(Indices(n), draws).value, n)
  {
    var l := Indices(n);
    PairingSucceedsOnEven(l, draws);
    PairingPartitions(l, draws);
    CoversIndices(Pairing(l, draws).value, n);
  }

  /** Pairs using the positions `0 .. n-1` once each use exactly those positions. */
  lemma CoversIndices(ps: seq<Pair>, n: nat)
    requires multiset(Flatten(ps)) == multiset(Indices(n))
    ensures forall x :: x in Flatten(ps) ==> 0 <= x < n
    ensures forall x :: 0 <= x < n ==> x in Flatten(ps)
  {
    SameMultisetSameMembers(Flatten(ps), Indices(n));
  }

  /** `(rand() % 1000) / 1000 < prawd_krzyzowania`: the integer quotient is
      always 0, so a pair is crossed exactly when the rate is positive. */
  function CrossOccurs(r: nat, rate: real): (b: bool)
    ensures b <==> rate > 0.0
  {
    ((r % 1000) / 1000) as real < rate
  }

  /** `rand() % (rozmiar_ciagu - 1) + 1` in unsigned arithmetic: within
      [1, len - 1] for genomes of two or more alleles, `rand() % 0` for a
      single allele. */
  function CrossingPoint(r: nat, len: nat): (c: Result<nat>)
    requires len < UintModulus
    ensures c.Failure? <==> len == 1
    ensures c.Failure? ==> c.fault == ModuloByZero
    ensures len >= 2 ==> c.Success? && 1 <= c.value <= len - 1
    ensures c.Success? ==> c.value >= 1
  {
    var modulus := ToUnsigned(len - 1);
    if modulus == 0 then Failure(ModuloByZero) else Success(r % modulus + 1)
  }

  /** Exchange the alleles at positions `c ..` between two genomes of equal
      length. */
  function SwapSuffix(a: seq<nat>, b: seq<nat>, c: nat): (r: (seq<nat>, seq<nat>))
    requires |a| == |b|
    ensures |r.0| == |a| && |r.1| == |b|
    ensures forall i :: 0 <= i < |a| && i < c ==> r.0[i] == a[i] && r.1[i] == b[i]
    ensures forall i :: c <= i < |a| ==> r.0[i] == b[i] && r.1[i] == a[i]
  {
    if c >= |a| then (a, b) else (a[..c] + b[c..], b[..c] + a[c..])
  }

  /** Swapping the same suffix twice restores both genomes. */
  lemma SwapSuffixTwice(a: seq<nat>, b: seq<nat>, c: nat)
    requires |a| == |b|
    ensures var once := SwapSuffix(a, b, c); SwapSuffix(once.0, once.1, c) == (a, b)
  {
    var once := SwapSuffix(a, b, c);
    var twice := SwapSuffix(once.0, once.1, c);
    assert twice.0 == a;
    assert twice.1 == b;
  }

  /** Genomes 0000 and 1111 crossed at position 2 become 0011 and 1100. */
  lemma SwapSuffixExample()
    ensures SwapSuffix([0, 0, 0, 0], [1, 1, 1, 1], 2) == ([0, 0, 1, 1], [1, 1, 0, 0])
  {
    var r := SwapSuffix([0, 0, 0, 0], [1, 1, 1, 1], 2);
    assert r.0 == [0, 0, 1, 1];
    assert r.1 == [1, 1, 0, 0];
  }

  /** Cross the genomes of the pair's two members at `c`; fitness values are
      carried over unchanged (stale until the next evaluation). */
  function CrossPair(pop: seq<Individual>, q: Pair, c: nat): (r: seq<Individual>)
    requires q.first < |pop| && q.second < |pop| && q.first != q.second
    requires |pop[q.first].genome| == |pop[q.second].genome|
    ensures |r| == |pop|
    ensures forall k :: 0 <= k < |pop| ==> r[k].fitness == pop[k].fitness && |r[k].genome| == |pop[k].genome|
    ensures forall k :: 0 <= k < |pop| && k != q.first && k != q.second ==> r[k] == pop[k]
    ensures (r[q.first].genome, r[q.second].genome) == SwapSuffix(pop[q.first].genome, pop[q.second].genome, c)
  {
    var s := SwapSuffix(pop[q.first].genome, pop[q.second].genome, c);
    pop[q.first := Individual(s.0, pop[q.first].fitness)][q.second := Individual(s.1, pop[q.second].fitness)]
  }

  predicate PairsWithin(pairs: seq<Pair>, n: nat)
  {
    forall q :: q in pairs ==> q.first < n && q.second < n && q.first != q.second
  }

  /** `n/2` pairs, no position in two of them, that together cover every
      position `0 .. n-1`. */
  predicate PartitionOf(pairs: seq<Pair>, n: nat)
  {
    && |pairs| == n / 2
    && Distinct(Flatten(pairs))
    && (forall x :: x in Flatten(pairs) ==> 0 <= x < n)
    && (forall x :: 0 <= x < n ==> x in Flatten(pairs))
  }

  /** In `out`, the partners of `q` carry the genomes of `pop`'s partners
      with their suffixes from `c` on exchanged. */
  predicate SwappedPair(pop: seq<Individual>, out: seq<Individual>, q: Pair, c: nat)
  {
    && q.first < |pop| && q.second < |pop| && |out| == |pop|
    && |pop[q.first].genome| == |pop[q.second].genome|
    && (out[q.first].genome, out[q.second].genome) == SwapSuffix(pop[q.first].genome, pop[q.second].genome, c)
  }

  /** Every pair `k` is crossed at the point drawn by draw `k`. */
  predicate SuffixesSwapped(pop: seq<Individual>, out: seq<Individual>, pairs: seq<Pair>,
                            draws: seq<PairDraw>, len: nat)
  {
    && len < UintModulus && len != 1 && |pairs| <= |draws|
    && forall k :: 0 <= k < |pairs| ==> SwappedPair(pop, out, pairs[k], CrossingPoint(draws[k].point, len).value)
  }

  /** Every individual in no pair is left as it was. */
  predicate UnpairedKept(pop: seq<Individual>, out: seq<Individual>, pairs: seq<Pair>)
  {
    |out| == |pop| && forall k :: 0 <= k < |pop| && k !in Flatten(pairs) ==> out[k] == pop[k]
  }

  /** Both partners of every pair occur among the flattened partners. */
  lemma FlattenHas(ps: seq<Pair>, k: nat)
    requires k < |ps|
    ensures ps[k].first as int in Flatten(ps) && ps[k].second as int in Flatten(ps)
  {
    if k > 0 {
      FlattenHas(ps[1..], k - 1);
      assert ps[1..][k - 1] == ps[k];
    }
  }

  /** A repetition-free list headed by `a, b`: the head is two different
      values, neither occurs again, and the rest is repetition-free. */
  lemma DistinctHead(a: int, b: int, rest: seq<int>)
    requires Distinct([a, b] + rest)
    ensures a != b && a !in rest && b !in rest && Distinct(rest)
  {
    var whole := [a, b] + rest;
    assert multiset(whole) == multiset{a, b} + multiset(rest);
    assert a in whole && b in whole;
    forall x | x in rest
      ensures multiset(rest)[x] <= 1
    {
      assert x in whole;
    }
  }

  /** Crossing the first pair and then, by the rest of the pairs, reaching
      `out` keeps every individual in no pair. */
  lemma CrossingStepKeeps(pop: seq<Individual>, pairs: seq<Pair>, c: nat, out: seq<Individual>)
    requires 0 < |pairs| && PairsWithin(pairs, |pop|)
    requires |pop[pairs[0].first].genome| == |pop[pairs[0].second].genome|
    requires UnpairedKept(CrossPair(pop, pairs[0], c), out, pairs[1..])
    ensures UnpairedKept(pop, out, pairs)
  {
    assert pairs[0] in pairs;
    assert Flatten(pairs) == [pairs[0].first as int, pairs[0].second as int] + Flatten(pairs[1..]);
  }

  /** Crossing the first pair and then, by the rest of the pairs, reaching
      `out` crosses every pair at its drawn point, as long as no later pair
      shares a partner with the first. */
  lemma CrossingStepCarries(pop: seq<Individual>, pairs: seq<Pair>, draws: seq<PairDraw>,
                            len: nat, c: nat, out: seq<Individual>)
    requires 0 < |pairs| <= |draws|
    requires pairs[0].first < |pop| && pairs[0].second < |pop| && pairs[0].first != pairs[0].second
    requires |pop[pairs[0].first].genome| == |pop[pairs[0].second].genome|
    requires pairs[0].first as int !in Flatten(pairs[1..]) && pairs[0].second as int !in Flatten(pairs[1..])
    requires len < UintModulus && len != 1
    requires CrossingPoint(draws[0].point, len) == Success(c)
    requires SuffixesSwapped(CrossPair(pop, pairs[0], c), out, pairs[1..], draws[1..], len)
    requires UnpairedKept(CrossPair(pop, pairs[0], c), out, pairs[1..])
    ensures SuffixesSwapped(pop, out, pairs, draws, len)
  {
    var q := pairs[0];
    var next := CrossPair(pop, q, c);
    assert out[q.first] == next[q.first] && out[q.second] == next[q.second];
    HeadSwapped(pop, q, c, out);
    LaterPairsSwapped(pop, pairs, draws, len, c, out);
    forall k | 0 <= k < |pairs|
      ensures SwappedPair(pop, out, pairs[k], CrossingPoint(draws[k].point, len).value)
    {
    }
  }

  /** The pair crossed first keeps its crossed genomes in `out` when `out`
      leaves its partners as the crossing made them. */
  lemma HeadSwapped(pop: seq<Individual>, q: Pair, c: nat, out: seq<Individual>)
    requires q.first < |pop| && q.second < |pop| && q.first != q.second
    requires |pop[q.first].genome| == |pop[q.second].genome| && |out| == |pop|
    requires out[q.first] == CrossPair(pop, q, c)[q.first] && out[q.second] == CrossPair(pop, q, c)[q.second]
    ensures SwappedPair(pop, out, q, c)
  {
  }

  /** Crossing pair `q` first does not touch a pair `p` disjoint from it,
      so `p` is crossed relative to the original population. */
  lemma OtherPairSwapped(pop: seq<Individual>, q: Pair, c: nat, out: seq<Individual>, p: Pair, cp: nat)
    requires q.first < |pop| && q.second < |pop| && q.first != q.second
    requires |pop[q.first].genome| == |pop[q.second].genome|
    requires p.first != q.first && p.first != q.second && p.second != q.first && p.second != q.second
    requires SwappedPair(CrossPair(pop, q, c), out, p, cp)
    ensures SwappedPair(pop, out, p, cp)
  {
  }

  /** Crossing the first pair does not touch the later pairs when they are
      disjoint from it, so they stay crossed relative to `pop`. */
  lemma LaterPairsSwapped(pop: seq<Individual>, pairs: seq<Pair>, draws: seq<PairDraw>,
                          len: nat, c: nat, out: seq<Individual>)
    requires 0 < |pairs| <= |draws|
    requires pairs[0].first < |pop| && pairs[0].second < |pop| && pairs[0].first != pairs[0].second
    requires |pop[pairs[0].first].genome| == |pop[pairs[0].second].genome|
    requires pairs[0].first as int !in Flatten(pairs[1..]) && pairs[0].second as int !in Flatten(pairs[1..])
    requires SuffixesSwapped(CrossPair(pop, pairs[0], c), out, pairs[1..], draws[1..], len)
    ensures forall k :: 1 <= k < |pairs| ==> SwappedPair(pop, out, pairs[k], CrossingPoint(draws[k].point, len).value)
  {
    forall k | 1 <= k < |pairs|
      ensures SwappedPair(pop, out, pairs[k], CrossingPoint(draws[k].point, len).value)
    {
      assert pairs[1..][k - 1] == pairs[k] && draws[1..][k - 1] == draws[k];
      FlattenHas(pairs[1..], k - 1);
      OtherPairSwapped(pop, pairs[0], c, out, pairs[k], CrossingPoint(draws[k].point, len).value);
    }
  }

  /** The crossing half of each pairing round, pair `k` using draw `k`. */
  function ApplyCrossings(pop: seq<Individual>, pairs: seq<Pair>, draws: seq<PairDraw>,
                          len: nat, rate: real): (r: Result<seq<Individual>>)
    requires |pairs| <= |draws|
    requires PairsWithin(pairs, |pop|) && Distinct(Flatten(pairs))
    requires GenomesOfLength(pop, len) && len < UintModulus
    ensures r.Failure? <==> |pairs| > 0 && rate > 0.0 && len == 1
    ensures r.Failure? ==> r.fault == ModuloByZero
    ensures r.Success? ==> |r.value| == |pop| && GenomesOfLength(r.value, len)
    ensures r.Success? ==> forall k :: 0 <= k < |pop| ==> r.value[k].fitness == pop[k].fitness
    ensures r.Success? && rate > 0.0 && len != 1 ==> SuffixesSwapped(pop, r.value, pairs, draws, len)
    ensures r.Success? ==> UnpairedKept(pop, r.value, pairs)
    ensures rate <= 0.0 ==> r == Success(pop)
    decreases |pairs|
  {
    if |pairs| == 0 then Success(pop)
    else
      assert pairs[0] in pairs;
      assert forall q :: q in pairs[1..] ==> q in pairs;
      DistinctHead(pairs[0].first, pairs[0].second, Flatten(pairs[1..]));
      if CrossOccurs(draws[0].occurrence, rate) then
        match CrossingPoint(draws[0].point, len)
        case Failure(e) => Failure(e)
        case Success(c) =>
          var r := ApplyCrossings(CrossPair(pop, pairs[0], c), pairs[1..], draws[1..], len, rate);
          if r.Success? then
            CrossingStepKeeps(pop, pairs, c, r.value);
            CrossingStepCarries(pop, pairs, draws, len, c, r.value);
            r
          else r
      else ApplyCrossings(pop, pairs[1..], draws[1..], len, rate)
  }

  /** `krzyzuj`. It fails (`rand() % 0`) on an odd population, and on
      one-allele genomes when any pair is crossed. Otherwise the drawn
      pairs split the population into `n/2` disjoint pairs, every pair's
      genomes are crossed at its drawn point when the rate is positive, and
      the population size, every genome length and every fitness value are
      kept. */
  function Cross(pop: seq<Individual>, len: nat, rate: real, draws: seq<PairDraw>): (r: Result<seq<Individual>>)
    requires |pop| < UintModulus && len < UintModulus
    requires GenomesOfLength(pop, len)
    requires |pop| <= 2 * |draws|
    ensures r.Success? <==> |pop| % 2 == 0 && !(|pop| > 0 && rate > 0.0 && len == 1)
    ensures r.Failure? ==> r.fault == ModuloByZero
    ensures r.Success? ==> |r.value| == |pop| && GenomesOfLength(r.value, len)
    ensures r.Success? ==> forall k :: 0 <= k < |pop| ==> r.value[k].fitness == pop[k].fitness
    ensures r.Success? ==> var ps := Pairing(Indices(|pop|), draws);
              ps.Success? && PartitionOf(ps.value, |pop|)
    ensures r.Success? && rate > 0.0 && len != 1 ==> var ps := Pairing(Indices(|pop|), draws);
              ps.Success? && SuffixesSwapped(pop, r.value, ps.value, draws, len)
    ensures |pop| % 2 == 0 && rate <= 0.0 ==> r == Success(pop)
  {
    var l := Indices(|pop|);
    PairingSucceedsOnEven(l, draws);
    match Pairing(l, draws)
    case Failure(e) => Failure(e)
    case Success(ps) =>
      IndexPairing(|pop|, draws);
      ApplyCrossings(pop, ps, draws, len, rate)
  }
}

=== FILE: generation.dfy ===
/** `populacja` and its generation step `nowa_populacja`: evaluate, shift
    to non-negative fitness, collect statistics, select the elite and
    resample it, replace the population, cross, mutate, evaluate again.

    `NextGenerationAsWritten` shifts by the minimum of the previous
    statistics pass, as the source does; `NextGeneration` shifts by the
    minimum of the values just evaluated. Both use the elite-relative
    cumulative table. */
module Generation {
  import opened Outcomes
  import opened Individuals
  import opened Stats
  import opened Selection
  import opened Crossover
  import opened Mutation

  /** The engine between two generation steps. */
  datatype Engine = Engine(
    members: seq<Individual>,  // `osobniki`; their count is `rozm_populacji`
    genomeLength: nat,         // `rozmiar_ciagu`
    mutationPercent: real,     // `prawd_mutacji`
    crossoverRate: real,       // `prawd_krzyzowania`
    alleles: AlleleCount,      // `ILOSC_DOSTEPNYCH`
    lastMin: real)             // `min_przystosowanie` of the latest statistics pass

  /** A non-empty population of genomes of the configured length, sizes
      within `unsigned`. */
  predicate Valid(e: Engine)
  {
    && 0 < |e.members| < UintModulus
    && e.genomeLength < UintModulus
    && GenomesOfLength(e.members, e.genomeLength)
  }

  /** The constructor: the mutation probability is stored as a percentage.
      `initialMin` stands for `min_przystosowanie`, which the constructor
      leaves unset and the first step reads. */
  function Create(members: seq<Individual>, len: nat, pMutation: real, pCrossover: real,
                  alleles: AlleleCount, initialMin: real): (e: Engine)
    requires 0 < |members| < UintModulus && len < UintModulus
    requires GenomesOfLength(members, len)
    ensures Valid(e) && e.members == members
    ensures 0.0 <= pMutation <= 1.0 ==> 0.0 <= e.mutationPercent <= 100.0
    ensures pMutation == 0.0 ==> e.mutationPercent == 0.0
    ensures pMutation == 1.0 ==> e.mutationPercent > 99.0
  {
    Engine(members, len, pMutation * 100.0, pCrossover, alleles, initialMin)
  }

  /** The random draws of one step, in place of `std::rand()`. */
  datatype Draws = Draws(
    selection: seq<nat>,             // one per new slot
    pairing: seq<PairDraw>,          // one per pairing round
    mutation: seq<seq<AlleleDraw>>)  // one per allele of every individual

  /** Enough draws, and freshly constructed individuals `blanks` (one per
      slot, of the configured genome length), for one step of `e`. */
  predicate DrawsFor(e: Engine, d: Draws, blanks: seq<Individual>)
  {
    && |d.selection| == |e.members|
    && |e.members| <= 2 * |d.pairing|
    && |d.mutation| == |e.members|
    && (forall i :: 0 <= i < |d.mutation| ==> |d.mutation[i]| == e.genomeLength)
    && |blanks| == |e.members|
    && GenomesOfLength(blanks, e.genomeLength)
  }

  /** What a step leaves behind: the new engine and the statistics of the
      shifted population it selected from. Their `sum` is that population's
      total; the source's `suma` ends the step holding the elite sum instead. */
  datatype Outcome = Outcome(next: Engine, stats: Statistics)

  lemma SameMultisetSameLengths(a: seq<Individual>, b: seq<Individual>, len: nat)
    requires multiset(a) == multiset(b) && GenomesOfLength(b, len)
    ensures GenomesOfLength(a, len)
  {
    forall i | 0 <= i < |a|
      ensures |a[i].genome| == len
    {
      assert a[i] in multiset(b);
    }
  }

  /** The selection half of the step: sort, table, resample. */
  function Select(shifted: seq<Individual>, draws: seq<nat>, blanks: seq<Individual>, len: nat): (r: seq<Individual>)
    requires GenomesOfLength(shifted, len) && GenomesOfLength(blanks, len)
    requires |draws| == |shifted| && |blanks| == |shifted|
    ensures |r| == |shifted| && GenomesOfLength(r, len)
    ensures var sorted := SortByFitness(shifted);
            forall i :: 0 <= i < |r| ==> r[i] in Elite(sorted) || r[i] == blanks[i]
  {
    var sorted := SortByFitness(shifted);
    SameMultisetSameLengths(sorted, shifted, len);
    var r := Resample(sorted, CumulativeTable(sorted), draws, blanks);
    assert forall x :: x in Elite(sorted) ==> x in sorted;
    r
  }

  /** The second half of the step, on the replaced population: cross,
      mutate, evaluate. */
  function Breed(e: Engine, fit: seq<nat> -> real, selected: seq<Individual>, d: Draws): (r: Result<seq<Individual>>)
    requires Valid(e) && DrawsFor(e, d, selected)
    ensures r.Success? <==> |e.members| % 2 == 0 && !(e.crossoverRate > 0.0 && e.genomeLength == 1)
    ensures r.Failure? ==> r.fault == ModuloByZero
    ensures r.Success? ==> |r.value| == |e.members| && GenomesOfLength(r.value, e.genomeLength)
    ensures r.Success? ==> forall i :: 0 <= i < |r.value| ==> r.value[i].fitness == fit(r.value[i].genome)
  {
    match Cross(selected, e.genomeLength, e.crossoverRate, d.pairing)
    case Failure(f) => Failure(f)
    case Success(crossed) =>
      Success(Evaluate(Mutate(crossed, e.genomeLength, e.mutationPercent, e.alleles, d.mutation), fit))
  }

  /** `oblicz_statystyki` after the shift, stated for the unshifted
      population. */
  function ShiftedStatistics(members: seq<Individual>, fit: seq<nat> -> real, shift: real): (s: Statistics)
    requires |members| > 0
    ensures s.worst < |members| && s.min == fit(members[s.worst].genome) - shift
    ensures forall i :: 0 <= i < |members| ==> s.min <= fit(members[i].genome) - shift
  {
    var shifted := Shift(Evaluate(members, fit), shift);
    var s := ComputeStatistics(shifted);
    assert forall i :: 0 <= i < |members| ==> shifted[i].fitness == fit(members[i].genome) - shift;
    s
  }

  /** `nowa_populacja` with the fitness values shifted by `shift`. */
  function Advance(e: Engine, fit: seq<nat> -> real, shift: real, d: Draws, blanks: seq<Individual>): (r: Result<Outcome>)
    requires Valid(e) && DrawsFor(e, d, blanks)
    ensures r.Success? <==> |e.members| % 2 == 0 && !(e.crossoverRate > 0.0 && e.genomeLength == 1)
    ensures r.Failure? ==> r.fault == ModuloByZero
    ensures r.Success? ==> var next := r.value.next;
              && Valid(next)
              && |next.members| == |e.members|
              && next == e.(members := next.members, lastMin := r.value.stats.min)
              && forall i :: 0 <= i < |next.members| ==> next.members[i].fitness == fit(next.members[i].genome)
    ensures r.Success? ==> var s := r.value.stats;
              && s.worst < |e.members|
              && s.min == fit(e.members[s.worst].genome) - shift
              && forall i :: 0 <= i < |e.members| ==> s.min <= fit(e.members[i].genome) - shift
  {
    var stats := ShiftedStatistics(e.members, fit, shift);
    var selected := Select(Shift(Evaluate(e.members, fit), shift), d.selection, blanks, e.genomeLength);
    match Breed(e, fit, selected, d)
    case Failure(f) => Failure(f)
    case Success(members) => Success(Outcome(e.(members := members, lastMin := stats.min), stats))
  }

  /** `nowa_populacja` as written: the shift uses `min_przystosowanie` from
      the previous statistics pass, because the statistics are recomputed
      only after the shift. */
  function NextGenerationAsWritten(e: Engine, fit: seq<nat> -> real, d: Draws, blanks: seq<Individual>): (r: Result<Outcome>)
    requires Valid(e) && DrawsFor(e, d, blanks)
    ensures r.Success? <==> |e.members| % 2 == 0 && !(e.crossoverRate > 0.0 && e.genomeLength == 1)
    ensures r.Success? ==> forall i :: 0 <= i < |e.members| ==>
              r.value.stats.min <= fit(e.members[i].genome) - e.lastMin
  {
    Advance(e, fit, e.lastMin, d, blanks)
  }

  /** A member now less fit than the previous pass's minimum enters
      selection with a negative fitness value, and the minimum the step
      records is negative. */
  lemma StaleMinimumGoesNegative(e: Engine, fit: seq<nat> -> real, d: Draws, blanks: seq<Individual>, i: nat)
    requires Valid(e) && DrawsFor(e, d, blanks)
    requires i < |e.members| && fit(e.members[i].genome) < e.lastMin
    requires |e.members| % 2 == 0 && !(e.crossoverRate > 0.0 && e.genomeLength == 1)
    ensures NextGenerationAsWritten(e, fit, d, blanks).Success?
    ensures NextGenerationAsWritten(e, fit, d, blanks).value.stats.min < 0.0
    ensures Shift(Evaluate(e.members, fit), e.lastMin)[i].fitness < 0.0
  {
  }

  /** `nowa_populacja` shifting by the minimum of the values just
      evaluated: the recorded minimum is 0, so no fitness value entering
      selection is negative. */
  function NextGeneration(e: Engine, fit: seq<nat> -> real, d: Draws, blanks: seq<Individual>): (r: Result<Outcome>)
    requires Valid(e) && DrawsFor(e, d, blanks)
    ensures r.Success? <==> |e.members| % 2 == 0 && !(e.crossoverRate > 0.0 && e.genomeLength == 1)
    ensures r.Success? ==> r.value.stats.min == 0.0
    ensures r.Success? ==> |r.value.next.members| == |e.members| && Valid(r.value.next)
    ensures var evaluated := Evaluate(e.members, fit);
            forall i :: 0 <= i < |e.members| ==>
              Shift(evaluated, ComputeStatistics(evaluated).min)[i].fitness >= 0.0
  {
    var low := ComputeStatistics(Evaluate(e.members, fit));
    ShiftByLowerBound(Evaluate(e.members, fit), low.min);
    var r := Advance(e, fit, low.min, d, blanks);
    assert r.Success? ==> r.value.stats.min <= fit(e.members[low.worst].genome) - low.min;
    r
  }

  /** Sorting two individuals of different fitness puts the fitter last. */
  lemma SortTwo(a: Individual, b: Individual)
    requires a.fitness != b.fitness
    ensures SortByFitness([a, b]) == if a.fitness < b.fitness then [a, b] else [b, a]
  {
  }

  /** Of two individuals, one at fitness 0 and the other positive, the
      positive one is the whole elite pool. */
  lemma EliteOfTwo(shifted: seq<Individual>, w: nat)
    requires |shifted| == 2 && w < 2
    requires shifted[1 - w].fitness == 0.0 && shifted[w].fitness > 0.0
    ensures var sorted := SortByFitness(shifted);
            && (forall k :: 0 <= k < |sorted| ==> sorted[k].fitness >= 0.0)
            && Elite(sorted) == [shifted[w]]
            && EliteSum(sorted) == shifted[w].fitness
  {
    assert shifted == [shifted[0], shifted[1]];
    SortTwo(shifted[0], shifted[1]);
    var sorted := SortByFitness(shifted);
    assert sorted == [shifted[1 - w], shifted[w]];
    var top := [shifted[w]];
    assert Elite(sorted) == top;
    assert top[..|top| - 1] == [];
    assert FitnessSum(top) == shifted[w].fitness;
  }

  /** Selecting from two individuals, one at fitness 0 and the other
      positive, copies the positive one into both slots. */
  lemma SelectTwo(shifted: seq<Individual>, draws: seq<nat>, blanks: seq<Individual>, len: nat, w: nat)
    requires GenomesOfLength(shifted, len) && GenomesOfLength(blanks, len)
    requires |shifted| == 2 && |draws| == 2 && |blanks| == 2 && w < 2
    requires shifted[1 - w].fitness == 0.0 && shifted[w].fitness > 0.0
    ensures forall i :: 0 <= i < 2 ==> Select(shifted, draws, blanks, len)[i] == shifted[w]
  {
    EliteOfTwo(shifted, w);
    var sorted := SortByFitness(shifted);
    ResampleCopiesElite(sorted, draws, blanks);
    var selected := Select(shifted, draws, blanks, len);
    assert selected == Resample(sorted, CumulativeTable(sorted), draws, blanks);
  }

  /** Two individuals of different fitness, no crossing and no mutation:
      the less fit one falls in the discarded lower half, so after one step
      both members carry the genome of the fitter one `w`. */
  lemma FitterOfTwoTakesOver(e: Engine, fit: seq<nat> -> real, d: Draws, blanks: seq<Individual>, w: nat)
    requires Valid(e) && DrawsFor(e, d, blanks)
    requires |e.members| == 2 && w < 2
    requires e.crossoverRate <= 0.0 && e.mutationPercent <= 0.0
    requires fit(e.members[1 - w].genome) < fit(e.members[w].genome)
    ensures NextGeneration(e, fit, d, blanks).Success?
    ensures forall i :: 0 <= i < 2 ==>
              NextGeneration(e, fit, d, blanks).value.next.members[i].genome == e.members[w].genome
  {
    var len := e.genomeLength;
    var evaluated := Evaluate(e.members, fit);
    var m := ComputeStatistics(evaluated).min;
    assert m == fit(e.members[1 - w].genome);
    var shifted := Shift(evaluated, m);
    SelectTwo(shifted, d.selection, blanks, len, w);
    var selected := Select(shifted, d.selection, blanks, len);
    assert Cross(selected, len, e.crossoverRate, d.pairing) == Success(selected);
    var mutated := Mutate(selected, len, e.mutationPercent, e.alleles, d.mutation);
    assert mutated == selected;
    assert Breed(e, fit, selected, d) == Success(Evaluate(mutated, fit));
    var r := NextGeneration(e, fit, d, blanks);
    assert r == Advance(e, fit, m, d, blanks);
    assert r.value.next.members == Evaluate(mutated, fit);
  }
}

=== FILE: individuals.dfy ===
/** Individuals (`osobnik`) and the whole-population passes that only touch
    fitness values: evaluation (`oblicz_przystosowania`) and the shift to
    non-negative values (`nieujemne_przystosowania`). */
module Individuals {

  /** A genome of alleles with the fitness last recorded for it; the fitness
      is stale after crossover or mutation until the next evaluation. */
  datatype Individual = Individual(genome: seq<nat>, fitness: real)

  /** Every genome has length `len` (the engine's `rozmiar_ciagu`). */
  predicate GenomesOfLength(pop: seq<Individual>, len: nat)
  {
    forall i :: 0 <= i < |pop| ==> |pop[i].genome| == len
  }

  /** Sum of the fitness values, accumulated front to back. */
  function FitnessSum(pop: seq<Individual>): real
  {
    if |pop| == 0 then 0.0 else FitnessSum(pop[..|pop| - 1]) + pop[|pop| - 1].fitness
  }

  /** `oblicz_przystosowania`: record `fit(genome)` as each individual's
      fitness. */
  function Evaluate(pop: seq<Individual>, fit: seq<nat> -> real): (r: seq<Individual>)
    ensures |r| == |pop|
    ensures forall i :: 0 <= i < |r| ==> r[i].genome == pop[i].genome && r[i].fitness == fit(r[i].genome)
  {
    seq(|pop|, i requires 0 <= i < |pop| => Individual(pop[i].genome, fit(pop[i].genome)))
  }

  /** A second evaluation with nothing in between changes nothing. */
  lemma EvaluateIdempotent(pop: seq<Individual>, fit: seq<nat> -> real)
    ensures Evaluate(Evaluate(pop, fit), fit) == Evaluate(pop, fit)
  {
  }

  /** `nieujemne_przystosowania`: subtract `m` from every fitness value. */
  function Shift(pop: seq<Individual>, m: real): (r: seq<Individual>)
    ensures |r| == |pop|
    ensures forall i :: 0 <= i < |r| ==> r[i].genome == pop[i].genome
    ensures forall i, j :: 0 <= i < |r| && 0 <= j < |r| ==>
              r[i].fitness - r[j].fitness == pop[i].fitness - pop[j].fitness
  {
    seq(|pop|, i requires 0 <= i < |pop| => Individual(pop[i].genome, pop[i].fitness - m))
  }

  /** The shift keeps the fitness order of any two individuals. */
  lemma ShiftPreservesOrder(pop: seq<Individual>, m: real, i: nat, j: nat)
    requires i < |pop| && j < |pop|
    ensures Shift(pop, m)[i].fitness <= Shift(pop, m)[j].fitness <==> pop[i].fitness <= pop[j].fitness
    ensures Shift(pop, m)[i].fitness < Shift(pop, m)[j].fitness <==> pop[i].fitness < pop[j].fitness
  {
  }

  /** Shifting by a lower bound of the fitness values makes them all
      non-negative. */
  lemma ShiftByLowerBound(pop: seq<Individual>, m: real)
    requires forall i :: 0 <= i < |pop| ==> m <= pop[i].fitness
    ensures forall i :: 0 <= i < |pop| ==> Shift(pop, m)[i].fitness >= 0.0
  {
  }

  /** Shifting by the value of individual `w`, a minimum, makes every value
      non-negative and `w` the zero. */
  lemma ShiftByMinimum(pop: seq<Individual>, w: nat)
    requires w < |pop|
    requires forall i :: 0 <= i < |pop| ==> pop[w].fitness <= pop[i].fitness
    ensures forall i :: 0 <= i < |pop| ==> Shift(pop, pop[w].fitness)[i].fitness >= 0.0
    ensures Shift(pop, pop[w].fitness)[w].fitness == 0.0
  {
  }

  /** The sum of a population is the sum of its two halves. */
  lemma {:induction false} FitnessSumAppend(a: seq<Individual>, b: seq<Individual>)
    ensures FitnessSum(a + b) == FitnessSum(a) + FitnessSum(b)
    decreases |b|
  {
    if |b| == 0 {
      assert a + b == a;
    } else {
      var b' := b[..|b| - 1];
      assert (a + b)[..|a + b| - 1] == a + b';
      FitnessSumAppend(a, b');
    }
  }

  /** With non-negative fitness values a longer prefix never sums to less. */
  lemma {:induction false} FitnessSumPrefixMonotone(pop: seq<Individual>, i: nat, j: nat)
    requires i <= j <= |pop|
    requires forall k :: 0 <= k < |pop| ==> pop[k].fitness >= 0.0
    ensures FitnessSum(pop[..i]) <= FitnessSum(pop[..j])
    decreases j - i
  {
    if i < j {
      FitnessSumPrefixMonotone(pop, i, j - 1);
      assert pop[..j][..j - 1] == pop[..j - 1];
    }
  }
}

=== FILE: lists.dfy ===
/** The index list used by crossover pairing: positional lookup
    (`lista_zwroc`) and removal by value (`std::list::remove`). */
module Lists {
  import opened Outcomes

  /** Which way through `lista_zwroc` a lookup went. */
  datatype LookupPath =
    | Found          // the scan reached the requested position
    | IndexTooLarge  // rejected by the guard before the scan
    | NotFound       // passed the guard, but the scan ran off the end

  /** The value `lista_zwroc` yields for position `index`. */
  function ListAt(l: seq<int>, index: nat): (r: nat)
    ensures r < UintModulus
    ensures index < |l| && 0 <= l[index] < UintModulus ==> r == l[index]
    ensures index >= |l| ==> r == 0
  {
    if index < |l| then ToUnsigned(l[index]) else 0
  }

  /** `lista_zwroc`: walk the list from the front until position `index`.
      The guard rejects only `index > |l|`; `index == |l|` slips through and
      falls off the end of the scan, which still yields 0. */
  method ListReturn(l: seq<int>, index: nat) returns (r: nat, path: LookupPath)
    ensures index < |l| ==> path == Found && r == ToUnsigned(l[index])
    ensures index == |l| ==> path == NotFound && r == 0
    ensures index > |l| ==> path == IndexTooLarge && r == 0
    ensures r == ListAt(l, index)
  {
    if index > |l| {
      return 0, IndexTooLarge;
    }
    var j := 0;
    while j < |l|
      invariant j <= |l|
      invariant j <= index
    {
      if index == j {
        return ToUnsigned(l[j]), Found;
      }
      j := j + 1;
    }
    return 0, NotFound;
  }

  /** No value occurs twice. */
  predicate Distinct(l: seq<int>)
  {
    forall x :: x in l ==> multiset(l)[x] <= 1
  }

  /** `std::list::remove(v)`: drop every element equal to `v`, keep the
      order of the rest. */
  function RemoveValue(l: seq<int>, v: int): (r: seq<int>)
    ensures multiset(r) == multiset(l)[v := 0]
    ensures forall x :: x in r ==> x in l && x != v
    ensures v in l ==> |r| < |l|
    ensures v !in l ==> r == l
  {
    if |l| == 0 then []
    else
      assert l == [l[0]] + l[1..];
      (if l[0] == v then [] else [l[0]]) + RemoveValue(l[1..], v)
  }

  /** Removal goes element by element: it distributes over concatenation,
      so the elements that remain keep their relative order. */
  lemma {:induction false} RemoveValueAppend(a: seq<int>, b: seq<int>, v: int)
    ensures RemoveValue(a + b, v) == RemoveValue(a, v) + RemoveValue(b, v)
    decreases |a|
  {
    if |a| == 0 {
      AppendEmpty(a, b);
    } else {
      RemoveValueAppend(a[1..], b, v);
      RemoveValueAppendStep(a[0], a[1..], b, v);
      HeadTail(a);
    }
  }

  /** The step of `RemoveValueAppend`: a head in front of both sides. */
  lemma RemoveValueAppendStep(x: int, t: seq<int>, b: seq<int>, v: int)
    requires RemoveValue(t + b, v) == RemoveValue(t, v) + RemoveValue(b, v)
    ensures RemoveValue([x] + t + b, v) == RemoveValue([x] + t, v) + RemoveValue(b, v)
  {
    AppendAssoc([x], t, b);
    RemoveValueCons(x, t + b, v);
    RemoveValueCons(x, t, v);
    AppendAssoc(if x == v then [] else [x], RemoveValue(t, v), RemoveValue(b, v));
  }

  // Sequence identities, kept apart from `RemoveValue` so that their proofs
  // do not meet its contract.

  lemma AppendEmpty(a: seq<int>, b: seq<int>)
    requires |a| == 0
    ensures a + b == b
  {
  }

  lemma HeadTail(a: seq<int>)
    requires |a| > 0
    ensures a == [a[0]] + a[1..]
  {
  }

  lemma AppendAssoc(p: seq<int>, q: seq<int>, r: seq<int>)
    ensures p + (q + r) == (p + q) + r
  {
  }

  /** Removal from a list with head `x` decides `x` and goes on with the tail. */
  lemma RemoveValueCons(x: int, t: seq<int>, v: int)
    ensures RemoveValue([x] + t, v) == (if x == v then [] else [x]) + RemoveValue(t, v)
  {
    assert ([x] + t)[1..] == t;
  }

  /** Two sequences with the same elements, counted with multiplicity,
      have the same members. */
  lemma SameMultisetSameMembers(a: seq<int>, b: seq<int>)
    requires multiset(a) == multiset(b)
    ensures forall x :: x in a <==> x in b
  {
    forall x
      ensures x in a <==> x in b
    {
      assert x in a <==> x in multiset(a);
      assert x in b <==> x in multiset(b);
    }
  }

  /** A sequence with the same elements, counted with multiplicity, as one
      without repetitions has no repetitions either. */
  lemma DistinctSameMultiset(a: seq<int>, b: seq<int>)
    requires multiset(a) == multiset(b) && Distinct(b)
    ensures Distinct(a)
  {
  }

  /** Removing a value that occurs once shortens the list by exactly one
      and keeps every other element. */
  lemma RemoveOnce(l: seq<int>, v: int)
    requires Distinct(l)
    requires v in l
    ensures |RemoveValue(l, v)| == |l| - 1
    ensures multiset(l) == multiset(RemoveValue(l, v)) + multiset{v}
    ensures Distinct(RemoveValue(l, v))
    ensures forall x :: x in RemoveValue(l, v) <==> x in l && x != v
  {
    var m := multiset(l);
    var r := RemoveValue(l, v);
    assert m[v] == 1;
    assert m == m[v := 0] + multiset{v};
    assert |multiset(r)| == |m| - 1;
    forall x
      ensures x in r <==> x in l && x != v
    {
      assert x in r <==> x in multiset(r);
      assert x in l <==> x in m;
    }
  }
}

=== FILE: mutation.dfy ===
/** `mutuj`: every allele of every individual is independently replaced,
    with the engine's mutation percentage, by a value drawn from the allele
    domain. */
module Mutation {
  import opened Individuals

  /** `ILOSC_DOSTEPNYCH`: the number of distinct allele values. */
  type AlleleCount = k: nat | k > 0 witness 1

  /** The two `rand()` results one allele consumes: the occurrence draw and
      the replacement value (the latter only when the allele mutates). */
  datatype AlleleDraw = AlleleDraw(occurrence: nat, value: nat)

  /** `(rand() % 100000) / 1000 < prawd_mutacji`: an integer quotient in
      0 .. 99 against the percentage, so a percentage of 0 or below never
      mutates and one above 99 always does. */
  function MutationOccurs(r: nat, percent: real): (b: bool)
    ensures percent <= 0.0 ==> !b
    ensures percent > 99.0 ==> b
  {
    ((r % 100000) / 1000) as real < percent
  }

  /** One genome's pass of `mutuj`. */
  function MutateGenome(g: seq<nat>, percent: real, alleles: AlleleCount, draws: seq<AlleleDraw>): (r: seq<nat>)
    requires |draws| == |g|
    ensures |r| == |g|
    ensures forall j :: 0 <= j < |g| ==> r[j] == g[j] || r[j] == draws[j].value % alleles
    ensures forall j :: 0 <= j < |g| && r[j] != g[j] ==> r[j] < alleles
    ensures percent <= 0.0 ==> r == g
    ensures percent > 99.0 ==> forall j :: 0 <= j < |g| ==> r[j] == draws[j].value % alleles
  {
    seq(|g|, j requires 0 <= j < |g| =>
      if MutationOccurs(draws[j].occurrence, percent) then draws[j].value % alleles else g[j])
  }

  /** `mutuj`: the population keeps its size, its genome lengths and its
      (now stale) fitness values; only alleles change, and only into the
      domain. */
  function Mutate(pop: seq<Individual>, len: nat, percent: real, alleles: AlleleCount,
                  draws: seq<seq<AlleleDraw>>): (r: seq<Individual>)
    requires GenomesOfLength(pop, len)
    requires |draws| == |pop| && forall i :: 0 <= i < |draws| ==> |draws[i]| == len
    ensures |r| == |pop| && GenomesOfLength(r, len)
    ensures forall i :: 0 <= i < |r| ==> r[i].fitness == pop[i].fitness
    ensures forall i, j :: 0 <= i < |r| && 0 <= j < len && r[i].genome[j] != pop[i].genome[j] ==>
              r[i].genome[j] < alleles
    ensures percent <= 0.0 ==> r == pop
    ensures percent > 99.0 ==> forall i, j :: 0 <= i < |r| && 0 <= j < len ==>
              r[i].genome[j] == draws[i][j].value % alleles
  {
    seq(|pop|, i requires 0 <= i < |pop| =>
      Individual(MutateGenome(pop[i].genome, percent, alleles, draws[i]), pop[i].fitness))
  }
}

=== FILE: outcomes.dfy ===
/** Shared result and option types of the engine model, and the width of
    the unsigned integers the engine computes with. */
module Outcomes {

  /** The ways a step of the engine can go wrong instead of producing a value.
      - ModuloByZero: an integer `%` whose right operand is 0.
      - DivisionByZero: a floating division by 0 (infinity or NaN in the
        engine's doubles; a real division here is undefined, so it is a fault).
      - OutOfBounds: an access outside an allocated array. */
  datatype Fault = ModuloByZero | DivisionByZero | OutOfBounds

  datatype Result<+T> = Success(value: T) | Failure(fault: Fault)

  datatype Option<+T> = None | Some(value: T)

  /** 2^32: the modulus of the engine's `unsigned` arithmetic. */
  const UintModulus: nat := 0x1_0000_0000

  /** Conversion of a (possibly negative) `int` to `unsigned`. */
  function ToUnsigned(x: int): (u: nat)
    ensures u < UintModulus
    ensures 0 <= x < UintModulus ==> u == x
  {
    x % UintModulus
  }
}

=== FILE: selection.dfy ===
/** Elitist selection (`compareosobnik1`, `selekcja_elitarna`) and roulette
    resampling (`losuj_nowych_osobnikow`).

    The population is sorted ascending by fitness; the upper part, from
    position n/2 on, is the elite pool. A cumulative percentage table over
    the elite drives the resampling: each new slot gets a copy of the first
    elite member whose cumulative value exceeds a draw in [0, 99.99].
    The members without the `AsWritten` suffix index the table relative to
    the elite pool and sum the whole pool; the `AsWritten` ones follow the
    source's own sums and indices, which fault. */
module Selection {
  import opened Outcomes
  import opened Individuals

  // ---------------------------------------------------------------------
  // Sorting

  /** `compareosobnik1`: strictly less fit. */
  predicate LessFit(a: Individual, b: Individual)
  {
    a.fitness < b.fitness
  }

  /** `compareosobnik1` is a strict weak order, as `std::sort` requires of
      its comparison: irreflexive, asymmetric, transitive, and two
      individuals are incomparable exactly when their fitness is equal. */
  lemma LessFitStrictWeakOrder(a: Individual, b: Individual, c: Individual)
    ensures !LessFit(a, a)
    ensures LessFit(a, b) ==> !LessFit(b, a)
    ensures LessFit(a, b) && LessFit(b, c) ==> LessFit(a, c)
    ensures !LessFit(a, b) && !LessFit(b, a) <==> a.fitness == b.fitness
  {
  }

  /** Each individual is at least as fit as the one before it. */
  predicate Ascending(s: seq<Individual>)
  {
    forall i :: 0 < i < |s| ==> s[i - 1].fitness <= s[i].fitness
  }

  /** In an ascending sequence every individual is at least as fit as every
      earlier one. */
  lemma {:induction false} AscendingOrdered(s: seq<Individual>, i: nat, j: nat)
    requires Ascending(s) && i <= j < |s|
    ensures s[i].fitness <= s[j].fitness
    decreases j - i
  {
    if i < j {
      AscendingOrdered(s, i, j - 1);
    }
  }

  /** Insert `x` into an ascending sequence after every strictly less fit
      member. */
  function InsertByFitness(x: Individual, s: seq<Individual>): (r: seq<Individual>)
    requires Ascending(s)
    ensures |r| == |s| + 1
    ensures multiset(r) == multiset(s) + multiset{x}
    ensures r[0] == x || (|s| > 0 && r[0] == s[0])
    ensures Ascending(r)
  {
    if |s| == 0 then [x]
    else if LessFit(s[0], x) then
      var rest := InsertByFitness(x, s[1..]);
      assert s == [s[0]] + s[1..];
      AscendingCons(s[0], rest);
      [s[0]] + rest
    else
      AscendingCons(x, s);
      [x] + s
  }

  /** Putting an individual no fitter than the head in front keeps a
      sequence ascending. */
  lemma AscendingCons(a: Individual, t: seq<Individual>)
    requires Ascending(t)
    requires |t| > 0 ==> a.fitness <= t[0].fitness
    ensures Ascending([a] + t)
  {
  }

  /** The sort of `selekcja_elitarna`: an ascending permutation of the
      population. */
  function SortByFitness(s: seq<Individual>): (r: seq<Individual>)
    ensures Ascending(r)
    ensures multiset(r) == multiset(s)
    ensures |r| == |s|
  {
    if |s| == 0 then []
    else
      assert s == s[..|s| - 1] + [s[|s| - 1]];
      InsertByFitness(s[|s| - 1], SortByFitness(s[..|s| - 1]))
  }

  // ---------------------------------------------------------------------
  // The cumulative table over the elite pool

  /** The elite pool: positions n/2 .. n-1 of the sorted population. */
  function Elite(sorted: seq<Individual>): seq<Individual>
  {
    sorted[|sorted| / 2..]
  }

  /** Sum of the elite pool's fitness values. */
  function EliteSum(sorted: seq<Individual>): real
  {
    FitnessSum(Elite(sorted))
  }

  /** `x` as a percentage of `total`. */
  function Percent(x: real, total: real): real
    requires total != 0.0
  {
    x * 100.0 / total
  }

  lemma PercentAdd(x: real, y: real, total: real)
    requires total != 0.0
    ensures Percent(x, total) + Percent(y, total) == Percent(x + y, total)
  {
  }

  /** Cumulative percentages: entry k adds member k's share of `total` to
      entry k-1. */
  function Table(elite: seq<Individual>, total: real): (t: seq<real>)
    requires total != 0.0
    ensures |t| == |elite|
    ensures forall k :: 0 <= k < |t| ==> t[k] == Percent(FitnessSum(elite[..k + 1]), total)
  {
    if |elite| == 0 then []
    else
      var last := |elite| - 1;
      var prev := Table(elite[..last], total);
      var share := Percent(elite[last].fitness, total);
      var t := prev + [if last == 0 then share else prev[last - 1] + share];
      assert forall k :: 0 <= k < |t| ==> t[k] == Percent(FitnessSum(elite[..k + 1]), total) by {
        forall k | 0 <= k < |t|
          ensures t[k] == Percent(FitnessSum(elite[..k + 1]), total)
        {
          if k < last {
            assert elite[..last][..k + 1] == elite[..k + 1];
          } else {
            assert elite[..last + 1][..last] == elite[..last];
            assert last > 0 ==> elite[..last][..last] == elite[..last];
            assert last == 0 ==> elite[..last] == [];
            PercentAdd(FitnessSum(elite[..last]), elite[last].fitness, total);
          }
        }
      }
      t
  }

  /** The table of the sorted population; `None` when the elite sum is 0,
      where every entry would be 0 * 100 / 0 (NaN) and no draw can fall
      below any of them. */
  function CumulativeTable(sorted: seq<Individual>): (t: Option<seq<real>>)
    ensures t.None? <==> EliteSum(sorted) == 0.0
    ensures t.Some? ==> |t.value| == |Elite(sorted)|
    ensures t.Some? ==> forall k :: 0 <= k < |t.value| ==>
              t.value[k] == Percent(FitnessSum(Elite(sorted)[..k + 1]), EliteSum(sorted))
  {
    var total := EliteSum(sorted);
    if total == 0.0 then None else Some(Table(Elite(sorted), total))
  }

  /** With non-negative fitness values the table never decreases. */
  lemma TableNondecreasing(sorted: seq<Individual>, i: nat, j: nat)
    requires forall k :: 0 <= k < |sorted| ==> sorted[k].fitness >= 0.0
    requires CumulativeTable(sorted).Some?
    requires i <= j < |CumulativeTable(sorted).value|
    ensures CumulativeTable(sorted).value[i] <= CumulativeTable(sorted).value[j]
  {
    var elite := Elite(sorted);
    var total := EliteSum(sorted);
    FitnessSumPrefixMonotone(elite, 0, |elite|);
    assert elite[..|elite|] == elite;
    assert elite[..0] == [];
    assert total > 0.0;
    FitnessSumPrefixMonotone(elite, i + 1, j + 1);
    PercentMonotone(FitnessSum(elite[..i + 1]), FitnessSum(elite[..j + 1]), total);
  }

  lemma PercentMonotone(x: real, y: real, total: real)
    requires x <= y && total > 0.0
    ensures Percent(x, total) <= Percent(y, total)
  {
  }

  lemma PercentOfWhole(total: real)
    requires total != 0.0
    ensures Percent(total, total) == 100.0
  {
  }

  /** The last entry of a non-degenerate table is exactly 100. */
  lemma TableEndsAtHundred(sorted: seq<Individual>)
    requires |sorted| > 0
    requires CumulativeTable(sorted).Some?
    ensures var t := CumulativeTable(sorted).value; t[|t| - 1] == 100.0
  {
    var elite := Elite(sorted);
    assert elite[..|elite|] == elite;
    PercentOfWhole(EliteSum(sorted));
  }

  // ---------------------------------------------------------------------
  // Roulette resampling

  /** The draw `(rand() % 10000) / 100`: a value in [0, 99.99] on a grid of
      0.01. */
  function DrawValue(r: nat): (x: real)
    ensures 0.0 <= x <= 99.99
    ensures (x * 100.0).Floor as real == x * 100.0
  {
    ((r % 10000) as real) / 100.0
  }

  /** The linear scan of the table: the first entry above `x`, if any. */
  function FirstAbove(table: seq<real>, x: real): (r: Option<nat>)
    ensures r.Some? ==> r.value < |table| && x < table[r.value]
    ensures r.Some? ==> forall k :: 0 <= k < r.value ==> table[k] <= x
    ensures r.None? <==> forall k :: 0 <= k < |table| ==> table[k] <= x
  {
    if |table| == 0 then None
    else if x < table[0] then Some(0)
    else match FirstAbove(table[1..], x)
      case None => None
      case Some(k) => Some(k + 1)
  }

  /** The individual slot `i` receives: a copy of the elite member found by
      the scan, or the slot's freshly constructed individual `blank`. */
  function Slot(sorted: seq<Individual>, table: Option<seq<real>>, draw: nat, blank: Individual): (r: Individual)
    requires table.Some? ==> |table.value| == |Elite(sorted)|
    ensures table.None? ==> r == blank
    ensures table.Some? && (forall k :: 0 <= k < |table.value| ==> table.value[k] <= DrawValue(draw)) ==> r == blank
    ensures forall k ::
              (table.Some? && 0 <= k < |table.value| && DrawValue(draw) < table.value[k] &&
               (forall j :: 0 <= j < k ==> table.value[j] <= DrawValue(draw)))
              ==> r == Elite(sorted)[k]
  {
    match table
    case None => blank
    case Some(t) =>
      match FirstAbove(t, DrawValue(draw))
      case Some(k) => sorted[|sorted| / 2 + k]
      case None => blank
  }

  /** `losuj_nowych_osobnikow`: fill every slot of the new generation,
      sampling the elite with replacement. */
  function Resample(sorted: seq<Individual>, table: Option<seq<real>>, draws: seq<nat>,
                    blanks: seq<Individual>): (r: seq<Individual>)
    requires |draws| == |sorted| && |blanks| == |sorted|
    requires table.Some? ==> |table.value| == |Elite(sorted)|
    ensures |r| == |sorted|
    ensures forall i :: 0 <= i < |r| ==> r[i] in Elite(sorted) || r[i] == blanks[i]
    ensures forall i :: 0 <= i < |r| ==> r[i] == Slot(sorted, table, draws[i], blanks[i])
  {
    seq(|sorted|, i requires 0 <= i < |sorted| => Slot(sorted, table, draws[i], blanks[i]))
  }

  /** Whenever the elite sum is not 0, every slot is a copy of an elite
      member: the last entry is 100, above every draw, whatever the signs of
      the fitness values. */
  lemma ResampleCopiesElite(sorted: seq<Individual>, draws: seq<nat>, blanks: seq<Individual>)
    requires |draws| == |sorted| && |blanks| == |sorted|
    requires EliteSum(sorted) != 0.0
    ensures forall i :: 0 <= i < |sorted| ==>
              Resample(sorted, CumulativeTable(sorted), draws, blanks)[i] in Elite(sorted)
  {
    var t := CumulativeTable(sorted).value;
    var r := Resample(sorted, CumulativeTable(sorted), draws, blanks);
    TableEndsAtHundred(sorted);
    forall i | 0 <= i < |sorted|
      ensures r[i] in Elite(sorted)
    {
      var x := DrawValue(draws[i]);
      assert x < t[|t| - 1];
      assert FirstAbove(t, x).Some?;
    }
  }

  /** When the elite sum is 0 no slot is filled from the elite. */
  lemma ResampleDegenerate(sorted: seq<Individual>, draws: seq<nat>, blanks: seq<Individual>)
    requires |draws| == |sorted| && |blanks| == |sorted|
    requires EliteSum(sorted) == 0.0
    ensures Resample(sorted, CumulativeTable(sorted), draws, blanks) == blanks
  {
  }

  // ---------------------------------------------------------------------
  // The source as written

  /** The elite sum as the source computes it: from position n/2 + 1, which
      leaves out the elite member at n/2. */
  function EliteSumAsWritten(sorted: seq<Individual>): (r: real)
    ensures |sorted| <= 2 ==> r == 0.0
  {
    if |sorted| / 2 + 1 <= |sorted| then FitnessSum(sorted[|sorted| / 2 + 1..]) else 0.0
  }

  lemma EliteSumAsWrittenSkipsMember(sorted: seq<Individual>)
    requires |sorted| > 0
    ensures EliteSumAsWritten(sorted) == EliteSum(sorted) - sorted[|sorted| / 2].fitness
  {
    var h := |sorted| / 2;
    assert Elite(sorted) == [sorted[h]] + sorted[h + 1..];
    FitnessSumAppend([sorted[h]], sorted[h + 1..]);
    assert [sorted[h]][..0] == [];
  }

  /** With the member at n/2 strictly fit, a table built on the as-written
      sum ends above 100. */
  lemma TableOnAsWrittenSumOvershoots(sorted: seq<Individual>)
    requires |sorted| > 0
    requires sorted[|sorted| / 2].fitness > 0.0
    requires EliteSumAsWritten(sorted) > 0.0
    ensures var t := Table(Elite(sorted), EliteSumAsWritten(sorted)); t[|t| - 1] > 100.0
  {
    var elite := Elite(sorted);
    var s := EliteSumAsWritten(sorted);
    EliteSumAsWrittenSkipsMember(sorted);
    assert elite[..|elite|] == elite;
    assert FitnessSum(elite) > s;
    PercentOfWhole(s);
    PercentAdd(s, FitnessSum(elite) - s, s);
    assert Percent(FitnessSum(elite) - s, s) > 0.0;
  }

  /** Fitness values 0, 0, 1, 1: the as-written sum is 1, half the elite's 2,
      and the table built on it reads 100 then 200. */
  lemma TableOnAsWrittenSumExample(g: seq<nat>)
    ensures var sorted := [Individual(g, 0.0), Individual(g, 0.0), Individual(g, 1.0), Individual(g, 1.0)];
            EliteSumAsWritten(sorted) == 1.0 && EliteSum(sorted) == 2.0 &&
            Table(Elite(sorted), EliteSumAsWritten(sorted)) == [100.0, 200.0]
  {
    var sorted := [Individual(g, 0.0), Individual(g, 0.0), Individual(g, 1.0), Individual(g, 1.0)];
    var elite := Elite(sorted);
    var tail := sorted[3..];
    assert tail == [Individual(g, 1.0)];
    assert tail[..0] == [];
    assert FitnessSum(tail) == 1.0;
    assert elite == [Individual(g, 1.0), Individual(g, 1.0)];
    assert elite[..1][..0] == [];
    assert elite[..2][..1] == elite[..1];
    assert elite[..2] == elite;
    assert FitnessSum(elite[..1]) == 1.0;
    assert FitnessSum(elite) == 2.0;
  }

  /** `selekcja_elitarna` as written: a table of n/2 entries, the first
      entry from member n/2, and each later entry j adding to entry i - 1,
      where i = n/2 + j is the member's position. */
  function CumulativeTableAsWritten(sorted: seq<Individual>): (r: Result<seq<real>>)
    ensures |sorted| <= 1 ==> r == Failure(OutOfBounds)
    ensures |sorted| == 2 ==> r == Failure(DivisionByZero)
    ensures |sorted| >= 3 && EliteSumAsWritten(sorted) == 0.0 ==> r == Failure(DivisionByZero)
    ensures |sorted| >= 3 && EliteSumAsWritten(sorted) != 0.0 ==> r == Failure(OutOfBounds)
  {
    var size := |sorted| / 2;
    var total := EliteSumAsWritten(sorted);
    if size == 0 then Failure(OutOfBounds)
    else if total == 0.0 then Failure(DivisionByZero)
    else
      var first := Percent(sorted[size].fitness, total);
      FillAsWritten(sorted, total, size + 1, 1, seq(size, k => if k == 0 then first else 0.0))
  }

  /** The loop of `selekcja_elitarna` from member `i`, table entry `j` on,
      with every array access checked against the table's size. */
  function FillAsWritten(sorted: seq<Individual>, total: real, i: nat, j: nat, table: seq<real>): (r: Result<seq<real>>)
    requires total != 0.0 && i >= 1
    ensures r.Success? ==> |r.value| == |table|
    ensures r.Success? ==> forall k :: 0 <= k < j && k < |table| ==> r.value[k] == table[k]
    ensures |table| < i < |sorted| ==> r == Failure(OutOfBounds)
    decreases |sorted| - i
  {
    if i >= |sorted| then Success(table)
    else if j >= |table| || i - 1 >= |table| then Failure(OutOfBounds)
    else FillAsWritten(sorted, total, i + 1, j + 1, table[j := Percent(sorted[i].fitness, total) + table[i - 1]])
  }

  /** The as-written table never comes out: one or no member leaves the
      table empty, two members leave the sum empty, and from three members
      on the first loop step reads entry n/2, one past the table's end. */
  lemma CumulativeTableAsWrittenFaults(sorted: seq<Individual>)
    ensures CumulativeTableAsWritten(sorted).Failure?
  {
  }

  /** The scan of `losuj_nowych_osobnikow` as written: positions j = n/2 ..
      n-1 index the table of n/2 entries directly. */
  function ScanAsWritten(table: seq<real>, n: nat, j: nat, x: real): (r: Result<Option<nat>>)
    requires j >= n / 2
    ensures r.Success? && r.value.Some? ==> j <= r.value.value < n && r.value.value < |table| && x < table[r.value.value]
    ensures r.Success? && r.value.None? ==> n <= j || n <= |table|
    ensures r.Success? && r.value.None? ==> forall k :: j <= k < n && k < |table| ==> table[k] <= x
    ensures j < n && |table| <= j ==> r == Failure(OutOfBounds)
    decreases n - j
  {
    if j >= n then Success(None)
    else if j >= |table| then Failure(OutOfBounds)
    else if x < table[j] then Success(Some(j))
    else ScanAsWritten(table, n, j + 1, x)
  }

  /** On a table of n/2 entries the as-written scan's first read is past its
      end, for every non-empty population. */
  lemma ScanAsWrittenFaults(table: seq<real>, n: nat, x: real)
    requires n > 0 && |table| == n / 2
    ensures ScanAsWritten(table, n, n / 2, x) == Failure(OutOfBounds)
  {
  }
}

=== FILE: statistics.dfy ===
/** `oblicz_statystyki`: one front-to-back pass collecting the sum, the mean,
    and the first individuals attaining the largest and the smallest fitness. */
module Stats {
  import opened Individuals

  datatype Statistics = Statistics(
    sum: real,    // `suma` as this pass leaves it; the elite selection reuses it
    mean: real,   // `srednie_przystosowanie`
    max: real,    // `max_przystosowanie`
    best: nat,    // position of `najlepszy`
    min: real,    // `min_przystosowanie`
    worst: nat)   // position of `najgorszy`

  /** Position of the best individual among the first `k`: a later one
      replaces the current best only when strictly fitter. */
  function BestIndex(pop: seq<Individual>, k: nat): (b: nat)
    requires 1 <= k <= |pop|
    ensures b < k
    ensures forall i :: 0 <= i < k ==> pop[i].fitness <= pop[b].fitness
    ensures forall i :: 0 <= i < b ==> pop[i].fitness < pop[b].fitness
  {
    if k == 1 then 0
    else
      var b := BestIndex(pop, k - 1);
      if pop[k - 1].fitness > pop[b].fitness then k - 1 else b
  }

  /** Position of the worst individual among the first `k`: a later one
      replaces the current worst only when strictly less fit. */
  function WorstIndex(pop: seq<Individual>, k: nat): (w: nat)
    requires 1 <= k <= |pop|
    ensures w < k
    ensures forall i :: 0 <= i < k ==> pop[w].fitness <= pop[i].fitness
    ensures forall i :: 0 <= i < w ==> pop[w].fitness < pop[i].fitness
  {
    if k == 1 then 0
    else
      var w := WorstIndex(pop, k - 1);
      if pop[k - 1].fitness < pop[w].fitness then k - 1 else w
  }

  /** The statistics of a non-empty population. */
  function ComputeStatistics(pop: seq<Individual>): (s: Statistics)
    requires |pop| > 0
    ensures s.best < |pop| && s.max == pop[s.best].fitness
    ensures forall i :: 0 <= i < |pop| ==> pop[i].fitness <= s.max
    ensures forall i :: 0 <= i < s.best ==> pop[i].fitness < s.max
    ensures s.worst < |pop| && s.min == pop[s.worst].fitness
    ensures forall i :: 0 <= i < |pop| ==> s.min <= pop[i].fitness
    ensures forall i :: 0 <= i < s.worst ==> s.min < pop[i].fitness
    ensures s.sum == FitnessSum(pop)
    ensures s.mean * (|pop| as real) == s.sum
  {
    var sum := FitnessSum(pop);
    var b := BestIndex(pop, |pop|);
    var w := WorstIndex(pop, |pop|);
    Statistics(sum, sum / (|pop| as real), pop[b].fitness, b, pop[w].fitness, w)
  }

  /** Fitness values 3, 1, 4, 1, 5: the mean is 2.8, the best is the fifth
      individual and the worst the second (the first of the two 1s). */
  lemma StatisticsExample(g: seq<nat>)
    ensures var pop := [Individual(g, 3.0), Individual(g, 1.0), Individual(g, 4.0),
                        Individual(g, 1.0), Individual(g, 5.0)];
            var s := ComputeStatistics(pop);
            s.min == 1.0 && s.worst == 1 && s.max == 5.0 && s.best == 4 && s.mean == 2.8
  {
    var pop := [Individual(g, 3.0), Individual(g, 1.0), Individual(g, 4.0),
                Individual(g, 1.0), Individual(g, 5.0)];
    assert pop[..1][..0] == [];
    assert pop[..2][..1] == pop[..1];
    assert pop[..3][..2] == pop[..2];
    assert pop[..4][..3] == pop[..3];
    assert FitnessSum(pop[..1]) == 3.0;
    assert FitnessSum(pop[..2]) == 4.0;
    assert FitnessSum(pop[..3]) == 8.0;
    assert FitnessSum(pop[..4]) == 9.0;
    assert FitnessSum(pop) == 14.0;
    assert BestIndex(pop, 3) == 2;
    assert BestIndex(pop, 5) == 4;
    assert WorstIndex(pop, 2) == 1;
    assert WorstIndex(pop, 5) == 1;
  }
}
